=== FILE: README.md ===
# PercEncFilter prefilter control logic, in Dafny

This project models `PercEncFilter`, the perceptual-encoding VPP prefilter of
the oneVPL GPU runtime (`_studio/mfx_lib/vpp/src/mfx_perc_enc_vpp.cpp`). The
model covers the lifecycle of the filter object (`Init`, `Close`, `Reset`),
the per-frame orchestration in `RunFrameVPP`, and the entry points that always
succeed (`Query`, `SetParam`, `IsReadyOutput`). It proves what each call
returns and what it changes.

Layout:

- `mfx_types.dfy` (module `MfxTypes`): status codes with the SDK's values
  (`MFX_ERR_NONE` 0, `MFX_ERR_NULL_PTR` -2, `MFX_ERR_UNSUPPORTED` -3,
  `MFX_ERR_INVALID_VIDEO_PARAM` -15), bytes, frame descriptors and surfaces.
- `planes.dfy` (module `Planes`): strided planes (`pitch * y + x`), the row-by-row
  copy loop and the flat chroma copy, with loop invariants.
- `perc_enc_filter.dfy` (module `PercEnc`): the object's fields as a value
  (`PercEncState`) and `Init`, `Close`, `Reset`, `Query`, `SetParam`, `IsReadyOutput`.
- `run_frame.dfy` (module `Frame`): `RunFrameVPP` and `RunFrameVPPTask`.
- `lifecycle.dfy` (module `Lifecycle`): properties of call sequences.

Every call takes the fields before the call and returns a `Step`. A `Step`
holds the status, the fields after the call, and the EncTools engine calls the
call made, in order. Things the object cannot decide for itself are inputs:

- `InitEnv`: AVX2 support, whether the engine was created, whether the core
  has an external allocator, and the status of the engine's `Init`.
- `FrameEnv`: the statuses of `Submit`, `Query` and the two surface locks, and
  the filtering kernel. The kernel is a function giving the luma byte it writes
  at each position of the crop rectangle.
- `Config`: whether the build defines `MFX_ENABLE_ENCTOOLS`.

The engine pointer has three states: null, live, or dangling. `Close`
destroys the engine but never sets the pointer back to null. `Close` also
never clears the initialized flag. The model follows the code on both, so:

- after the first successful `Init`, a later `Init` still makes the AVX2
  check and the null checks. If those pass, it returns success without
  validating the geometry or changing anything. That includes the `Init`
  inside `Reset`. So `Reset` keeps the old crop size and temporal buffer,
  whatever geometry it is given (`Lifecycle.FrozenOnceInitialized`).
- after `Reset` to a crop with fewer rows, the filter still copies the old
  number of rows. The frame guard compares only the input surface with the
  output surface, never with the filter's own size. So a frame sized to the
  new crop passes every check, and the luma copies then read and write past
  the end of its planes. When the pitch is at least the width, so does the
  chroma copy (`Lifecycle.ResetToShorterFrameOverruns`,
  with a concrete case in `Lifecycle.ShorterFrameExample`). The model's
  `RunFrameVPP` requires planes large enough for the copies. So it says
  nothing about such frames, and this lemma shows the lifecycle can produce them.
- every `Reset` of an initialized filter whose saliency gate is on destroys
  the engine, through the `Close` it makes, and leaves the gate on. The next
  processed frame therefore calls `Submit` on a destroyed engine, and each
  later `Close` or `Reset` destroys it again (`Lifecycle.ResetLeavesStaleGate`).
  With the gate off, because the engine's own `Init` failed, `Reset` still
  destroys the engine, but no frame calls it afterwards. With no engine,
  nothing is destroyed. `Close`, then
  `Reset`, then the destructor's `Close` destroy it three times
  (`Lifecycle.CloseThenResetKeepsStaleGate`).

Other behaviour of the frame path that the model keeps as written:

- as long as neither the temporal buffer's resize nor the `Filter`
  constructor throws, the copy made when the filter has no kernel only ever
  copies a 0x0 rectangle. `Init` installs the kernel in the same step that
  sets the crop size, and a newly constructed filter has size 0x0
  (`Lifecycle.NoKernelOnlyAtZeroSize`).
- any status other than `MFX_ERR_NONE` from `Submit` or `Query`, warnings
  included, ends the frame with that status. A map that is not ready yet is not
  treated as "no map for this frame".
- the frame counter advances after a successful `Submit` and before `Query`. So
  a failed `Submit` leaves it unchanged and a failed `Query` does not.
- the chroma copy is exactly `pitch * height / 2` bytes from the start of the
  interleaved chroma plane.

## Model

| member | source | states |
|---|---|---|
| `PercEnc.Init` | _studio/mfx_lib/vpp/src/mfx_perc_enc_vpp.cpp:50-117 | The CPU check comes first, then the null checks. Past those, an initialized filter returns success and nothing changes. `MFX_ERR_INVALID_VIDEO_PARAM` is returned exactly when in/out differ in CropW, CropH, FourCC, BitDepthLuma, BitDepthChroma, ChromaFormat or Shift, or CropW < 16 or CropH < 2, and then nothing changes. `MFX_ERR_UNSUPPORTED` is returned exactly when the CPU lacks AVX2. The only other failure is an engine without an external allocator: success is exactly AVX2, both descriptors present, and either already initialized or acceptable geometry with no such missing allocator. After a first success: initialized, width/height = crop, temporal buffer of width*height bytes (old prefix kept, rest zero), kernel present. With EncTools: gate on iff the engine was created and its Init succeeded, counter = 0, and the created engine is kept even when its Init fails. The missing-allocator return leaves the filter uninitialized with gate off, counter 0 and the engine live. Preserves `Valid` |
| `PercEnc.Close` | _studio/mfx_lib/vpp/src/mfx_perc_enc_vpp.cpp:119-129 | Always success. Only the engine pointer changes, and the initialized flag stays set. A non-null pointer (even a dangling one) is closed and destroyed again, and is left dangling, not null |
| `PercEnc.Reset` | _studio/mfx_lib/vpp/src/mfx_perc_enc_vpp.cpp:131-140 | A null parameter gives `MFX_ERR_NULL_PTR` and changes nothing. Otherwise the result is `Close` followed by `Init` on `vpp.In`/`vpp.Out`, with their engine calls concatenated. On an initialized filter (with AVX2) it succeeds for any descriptors and keeps size, temporal buffer, gate and counter. On an uninitialized one it succeeds iff the descriptors are acceptable, unless the engine has no allocator. The filter is initialized afterwards iff it was before or the call succeeded. Preserves `Valid` |
| `PercEnc.Query` | _studio/mfx_lib/vpp/src/mfx_perc_enc_vpp.cpp:32-36 | Returns `MFX_ERR_NONE` for any hint |
| `PercEnc.SetParam` | _studio/mfx_lib/vpp/src/mfx_perc_enc_vpp.cpp:142-145 | Returns `MFX_ERR_NONE`, leaves the fields unchanged and calls no engine |
| `PercEnc.IsReadyOutput` | _studio/mfx_lib/vpp/src/mfx_perc_enc_vpp.cpp:248-252 | Output is always ready |
| `Frame.RunFrameVPP` | _studio/mfx_lib/vpp/src/mfx_perc_enc_vpp.cpp:152-246 | A null surface gives `MFX_ERR_NULL_PTR`. A nonzero or differing crop origin, or a differing CropW, CropH or pitch, gives success with the output, temporal buffer and counter unchanged. With the gate off, the engine is never called. A failing `Submit` is returned with the counter unchanged. A failing `Query` is returned with the counter plus one. A failing lock is returned. Failures write nothing. Success happens exactly when the frame is passed through or fully processed. Then the output luma in the crop rectangle is the kernel's output, or a copy of the input luma when there is no kernel. Row padding is not written. The temporal buffer holds the output luma at stride width. The first pitch*height/2 chroma bytes are copied from the input and the rest are kept. Preserves `Valid` |
| `Frame.RunFrameVPPTask` | _studio/mfx_lib/vpp/src/mfx_perc_enc_vpp.cpp:147-150 | Same contract as `RunFrameVPP`, to which it delegates |
| `Planes.WriteRows` | _studio/mfx_lib/vpp/src/mfx_perc_enc_vpp.cpp:225-237 | The row loops: every byte at `pitch*y + x` for y < height and x < width gets the produced value. Bytes at row offsets >= width and after the last row are unchanged |
| `Planes.CopyPrefix` | _studio/mfx_lib/vpp/src/mfx_perc_enc_vpp.cpp:240-243 | The flat chroma copy: the first n bytes come from the source and the rest of the destination is unchanged |
| `Planes.Resize` | _studio/mfx_lib/vpp/src/mfx_perc_enc_vpp.cpp:74 | `previousOutput.resize`: length n, existing prefix kept, new tail zero |
| `Lifecycle.ReplayKeepsValid` | _studio/mfx_lib/vpp/src/mfx_perc_enc_vpp.cpp:50-145 | No sequence of lifecycle calls breaks the invariant. Initialized implies width >= 16, height >= 2, a temporal buffer of width*height bytes and a kernel. The gate on implies an engine pointer |
| `Lifecycle.FrozenOnceInitialized` | _studio/mfx_lib/vpp/src/mfx_perc_enc_vpp.cpp:58-59 | Once initialized, any sequence of `Init`/`Close`/`Reset`/`SetParam`/`Query` calls changes nothing but the engine pointer. Size, temporal buffer, gate and counter are kept, and a null engine stays null |
| `Lifecycle.InitIdempotent` | _studio/mfx_lib/vpp/src/mfx_perc_enc_vpp.cpp:58-59 | After a successful `Init`, a second `Init` with any descriptors returns success and changes nothing |
| `Lifecycle.ResetKeepsOldGeometry` | _studio/mfx_lib/vpp/src/mfx_perc_enc_vpp.cpp:131-140 | `Reset` of an initialized filter succeeds for any descriptors, even invalid ones. It keeps every field except the engine pointer, and makes only `Close`'s engine calls |
| `Lifecycle.CloseThenResetKeepsStaleGate` | _studio/mfx_lib/vpp/src/mfx_perc_enc_vpp.cpp:119-129 | With the gate on, `Close` then `Reset` succeeds and leaves the gate on and the engine pointer dangling. `Close` destroys the engine, the `Close` inside `Reset` destroys it again, and a further `Close` a third time: three destructions in all |
| `Lifecycle.ResetLeavesStaleGate` | _studio/mfx_lib/vpp/src/mfx_perc_enc_vpp.cpp:119-140 | With the gate on, `Reset` alone succeeds, closes and destroys the engine, and leaves the gate on with the pointer dangling. A second `Reset` closes and destroys it again |
| `Lifecycle.FirstInitZeroesTemporalBuffer` | _studio/mfx_lib/vpp/src/mfx_perc_enc_vpp.cpp:72-74 | The first successful `Init` of a new filter gives an all-zero temporal buffer of CropW*CropH bytes |
| `Lifecycle.InitAcceptsExactlyCompatibleGeometry` | _studio/mfx_lib/vpp/src/mfx_perc_enc_vpp.cpp:61-70 | On a new filter with AVX2 (and an allocator, if an engine exists), `Init` succeeds iff the descriptors agree in every checked field and meet the minimum size. Otherwise it fails with `MFX_ERR_INVALID_VIDEO_PARAM` |
| `Lifecycle.TemporalBufferFits` | _studio/mfx_lib/vpp/src/mfx_perc_enc_vpp.cpp:233-237 | An initialized filter's temporal buffer holds every `width*y + x` written by the copy into it |
| `Lifecycle.SizedSurfacesMeetFrameRequires` | _studio/mfx_lib/vpp/src/mfx_perc_enc_vpp.cpp:219-243 | For a `Valid` initialized filter, surfaces with pitch >= width, at least pitch*height luma bytes and at least pitch*height/2 chroma bytes meet `RunFrameVPP`'s precondition, whatever the engine and locks return |
| `Lifecycle.ResetToShorterFrameOverruns` | _studio/mfx_lib/vpp/src/mfx_perc_enc_vpp.cpp:131-165 | After `Reset` of an initialized filter to a crop with fewer rows, the call succeeds and the filter keeps the old height. A frame whose luma plane holds exactly the new crop's rows then passes every check of `RunFrameVPP`, yet its plane does not hold the rows the filter copies. When the pitch is at least the width, a chroma plane sized to the new crop is also shorter than the chroma copy |
| `Lifecycle.NoKernelOnlyAtZeroSize` | _studio/mfx_lib/vpp/src/mfx_perc_enc_vpp.cpp:71-74 | From a state with a kernel or a 0x0 crop, such as a newly constructed filter, no sequence of lifecycle calls reaches a state without a kernel and with a nonzero crop |
| `Lifecycle.ShorterFrameExample` | _studio/mfx_lib/vpp/src/mfx_perc_enc_vpp.cpp:131-165 | A 32x4 filter reset to 32x2 keeps height 4. A 32x2 frame with pitch 32 reaches the pixel copies without holding the rows they touch |

## Left out

- CPU feature detection (`__builtin_cpu_supports("avx2")`) is a boolean input.
- `Filter::processFrame` and the `Filter` constructor are not part of this model. The kernel is a
  function from what the filter passes it (input luma, pitch, temporal buffer,
  size) to the byte at each crop position. The model assumes it writes only the
  crop rectangle of the output luma, does not read the output's previous
  contents, and ignores `modulation`, a member this file never writes.
- The EncTools engine (creation, `Init`, `Submit`, `Query`, `Close`, `Destroy`),
  its extension-buffer headers and the allocator lookup through
  `QueryCoreInterface` are inputs: statuses and a found/not-found flag.
- The saliency map buffer of `float`s is allocated for `Query` and then
  discarded. Its contents are not modelled, only the `Query` call.
- The surface locks are two statuses checked before any write. Their release on
  scope exit is not modelled.
- The constructor (its `dynamic_cast` of the core) and the destructor are not
  modelled. `PercEnc.Constructed` assumes the header's defaults: not
  initialized, 0x0, empty buffer, no kernel, gate off, counter 0, no engine.
- `ONEVPL_EXPERIMENTAL` gating is not modelled. `MFX_ENABLE_ENCTOOLS` is the
  `Config.encTools` flag.
- Frame.RunFrameVPP: whenever a frame reaches the pixel copies, the caller must
  supply planes that hold the filter's crop rectangle. Reading or writing past
  a plane has no defined result in the C++ code, so no contract covers those
  frames. `Reset` to a shorter crop produces exactly such frames
  (`Lifecycle.ResetToShorterFrameOverruns`). The model also assumes pitch >= width.
  With a smaller pitch the rows overlap, which the C++ row copies allow, but the
  model's row writes are stated for rows that do not overlap.
- C++ exceptions have no outcome in the model. These are allocation failures
  in `previousOutput.resize` and `std::make_unique<Filter>` during `Init`
  (_studio/mfx_lib/vpp/src/mfx_perc_enc_vpp.cpp:74-75) and in the saliency map
  allocation during `RunFrameVPP` (line 195), and whatever the `Filter`
  constructor throws. An exception after the size is set (lines 72-73) would leave a nonzero size with no kernel, so the next
  frame would take the plain row copy at that size. The model's `Init` sets
  size and kernel together.
- Planes.WriteRows: requires `RowsFit`, so pitch >= width and the rectangle
  inside the plane. The C++ row copies also run with overlapping rows
  (pitch < width), where later rows overwrite earlier ones. The model's
  contract, which gives each crop byte its own value, does not describe that case.
- Integer widths: `mfxU16` fields, the product `pitch * height` and the frame
  counter are unbounded naturals. The counter's declared width is in the header,
  which is not part of this model, so its wrap-around is not modelled.
- A sequence of frames through `RunFrameVPP` is not modelled as one call. The
  temporal feedback is stated per frame: a successful frame leaves its output luma
  in the buffer that the next frame hands to the kernel.

=== FILE: lifecycle.dfy ===
/**
 Properties of sequences of lifecycle calls on one `PercEncFilter`.

 Because `Close` never clears `m_initialized`, the first successful `Init`
 fixes the crop size and the temporal buffer for the life of the object:
 later `Init` calls short-circuit, and so does the `Init` inside `Reset`.
 */
module Lifecycle {
  import opened MfxTypes
  import opened Planes
  import opened PercEnc
  import opened Frame

  /** One call on the object's lifecycle interface. */
  datatype Op =
    | OpInit(env: InitEnv, inInfo: Option<FrameInfo>, outInfo: Option<FrameInfo>)
    | OpClose
    | OpReset(env: InitEnv, param: Option<VideoParam>)
    | OpSetParam(buffer: Option<ExtBuffer>)
    | OpQuery(hint: Option<ExtBuffer>)

  function Apply(f: PercEncState, cfg: Config, op: Op): Step
  {
    match op
    case OpInit(env, a, b) => Init(f, cfg, env, a, b)
    case OpClose => Close(f, cfg)
    case OpReset(env, p) => Reset(f, cfg, env, p)
    case OpSetParam(b) => SetParam(f, b)
    case OpQuery(h) => Step(Query(h), f, [])
  }

  /** The fields after making the calls `ops` in order, whatever they return. */
  function Replay(f: PercEncState, cfg: Config, ops: seq<Op>): PercEncState
    decreases |ops|
  {
    if ops == [] then f else Replay(Apply(f, cfg, ops[0]).state, cfg, ops[1..])
  }

  /** No sequence of lifecycle calls breaks the field invariant. */
  lemma {:induction false} ReplayKeepsValid(f: PercEncState, cfg: Config, ops: seq<Op>)
    requires Valid(f)
    ensures Valid(Replay(f, cfg, ops))
    decreases |ops|
  {
    if ops != [] {
      var next := Apply(f, cfg, ops[0]).state;
      assert Valid(next);
      ReplayKeepsValid(next, cfg, ops[1..]);
    }
  }

  /** `Init` installs the filtering kernel in the same step that sizes the
      filter, so no sequence of lifecycle calls from a state with a kernel or
      a 0x0 crop (as after construction) reaches a state without a kernel and
      with a nonzero crop: the copy made when there is no kernel only ever
      copies an empty rectangle. */
  lemma {:induction false} NoKernelOnlyAtZeroSize(f: PercEncState, cfg: Config, ops: seq<Op>)
    requires f.hasKernel || (f.width == 0 && f.height == 0)
    ensures var g := Replay(f, cfg, ops);
            !g.hasKernel ==> g.width == 0 && g.height == 0
    decreases |ops|
  {
    if ops != [] {
      var next := Apply(f, cfg, ops[0]).state;
      assert next.hasKernel || (next.width == 0 && next.height == 0);
      NoKernelOnlyAtZeroSize(next, cfg, ops[1..]);
    }
  }

  /** Once initialized, no sequence of lifecycle calls changes anything but
      the engine pointer: the crop size, the temporal buffer, the saliency
      gate and the frame counter stay as they were. A null engine pointer
      stays null. */
  lemma {:induction false} FrozenOnceInitialized(f: PercEncState, cfg: Config, ops: seq<Op>)
    requires f.initialized
    ensures Replay(f, cfg, ops) == f.(engine := Replay(f, cfg, ops).engine)
    ensures f.engine == NoEngine ==> Replay(f, cfg, ops).engine == NoEngine
    decreases |ops|
  {
    if ops != [] {
      var next := Apply(f, cfg, ops[0]).state;
      assert next == f.(engine := next.engine);
      assert f.engine == NoEngine ==> next.engine == NoEngine;
      FrozenOnceInitialized(next, cfg, ops[1..]);
    }
  }

  /** A second `Init` after a successful one returns success and changes
      nothing, whatever descriptors it is given. */
  lemma InitIdempotent(f: PercEncState, cfg: Config, env: InitEnv, a: FrameInfo, b: FrameInfo,
                       env2: InitEnv, c: FrameInfo, d: FrameInfo)
    requires Init(f, cfg, env, Some(a), Some(b)).status == ErrNone
    requires env2.cpuHasAvx2
    ensures var first := Init(f, cfg, env, Some(a), Some(b));
            Init(first.state, cfg, env2, Some(c), Some(d)) == Step(ErrNone, first.state, [])
  {
  }

  /** `Reset` on an initialized filter succeeds with any descriptors, even
      invalid ones, and keeps the old crop size, temporal buffer, saliency
      gate and frame counter; all it does is close and destroy the engine. */
  lemma ResetKeepsOldGeometry(f: PercEncState, cfg: Config, env: InitEnv, p: VideoParam)
    requires f.initialized && env.cpuHasAvx2
    ensures var r := Reset(f, cfg, env, Some(p));
            && r.status == ErrNone
            && r.state == f.(engine := Close(f, cfg).state.engine)
            && r.calls == Close(f, cfg).calls
  {
  }

  /** The number of engine destructions in a run of engine calls. */
  function Destroys(calls: seq<EngineCall>): nat
  {
    if calls == [] then 0 else (if calls[0] == DestroyEngine then 1 else 0) + Destroys(calls[1..])
  }

  lemma {:induction false} DestroysAppend(a: seq<EngineCall>, b: seq<EngineCall>)
    ensures Destroys(a + b) == Destroys(a) + Destroys(b)
    decreases |a|
  {
    if a == [] {
      assert a + b == b;
    } else {
      assert (a + b)[0] == a[0];
      assert (a + b)[1..] == a[1..] + b;
      DestroysAppend(a[1..], b);
    }
  }

  /** With the EncTools engine compiled in, `Reset` of an initialized filter
      with the gate on closes and destroys the engine, succeeds, and leaves
      the gate on with the pointer dangling; so the next processed frame
      submits to a destroyed engine. A second `Reset` destroys it again. */
  lemma ResetLeavesStaleGate(f: PercEncState, cfg: Config, env: InitEnv, p: VideoParam, env2: InitEnv, p2: VideoParam)
    requires Valid(f) && f.initialized && f.saliencyMapSupported && cfg.encTools && env.cpuHasAvx2
    ensures var reset := Reset(f, cfg, env, Some(p));
            && reset.status == ErrNone
            && reset.state.saliencyMapSupported
            && reset.state.engine == Dangling
            && reset.calls == [CloseEngine, DestroyEngine]
            && Reset(reset.state, cfg, env2, Some(p2)).calls == [CloseEngine, DestroyEngine]
  {
  }

  /** `Close` followed by `Reset` with the gate on: `Close` destroys the
      engine, the `Close` inside `Reset` destroys it a second time, and a
      further `Close` (as in the destructor) a third time, while the gate
      stays on throughout. */
  lemma CloseThenResetKeepsStaleGate(f: PercEncState, cfg: Config, env: InitEnv, p: VideoParam)
    requires Valid(f) && f.initialized && f.saliencyMapSupported && cfg.encTools && env.cpuHasAvx2
    ensures var closed := Close(f, cfg);
            var reset := Reset(closed.state, cfg, env, Some(p));
            && reset.status == ErrNone
            && reset.state.saliencyMapSupported
            && reset.state.engine == Dangling
            && reset.calls == [CloseEngine, DestroyEngine]
            && Close(reset.state, cfg).calls == [CloseEngine, DestroyEngine]
            && Destroys(closed.calls + reset.calls + Close(reset.state, cfg).calls) == 3
  {
    var closed := Close(f, cfg);
    var reset := Reset(closed.state, cfg, env, Some(p));
    var last := Close(reset.state, cfg);
    DestroysAppend(closed.calls, reset.calls);
    DestroysAppend(closed.calls + reset.calls, last.calls);
    assert Destroys([CloseEngine, DestroyEngine]) == 1;
  }

  /** The first successful `Init` of a newly constructed filter gives an
      all-zero temporal buffer of one byte per luma sample of the crop. */
  lemma FirstInitZeroesTemporalBuffer(cfg: Config, env: InitEnv, a: FrameInfo, b: FrameInfo)
    requires Init(Constructed(), cfg, env, Some(a), Some(b)).status == ErrNone
    ensures var g := Init(Constructed(), cfg, env, Some(a), Some(b)).state;
            && g.initialized
            && |g.previousOutput| == a.cropW * a.cropH
            && forall i :: 0 <= i < |g.previousOutput| ==> g.previousOutput[i] == 0
  {
  }

  /** A newly constructed filter accepts exactly the geometry pairs that
      agree in every checked field and meet the minimum size, unless the
      CPU lacks AVX2 or the engine exists without an external allocator. */
  lemma InitAcceptsExactlyCompatibleGeometry(cfg: Config, env: InitEnv, a: FrameInfo, b: FrameInfo)
    requires env.cpuHasAvx2
    requires !(cfg.encTools && env.engineCreated && !env.allocatorFound)
    ensures Init(Constructed(), cfg, env, Some(a), Some(b)).status == ErrNone <==> Acceptable(a, b)
    ensures !Acceptable(a, b) ==> Init(Constructed(), cfg, env, Some(a), Some(b)).status == ErrInvalidVideoParam
  {
  }

  /** The temporal buffer of an initialized filter holds the whole crop
      rectangle at stride `width`, as the row copy into it requires. */
  lemma TemporalBufferFits(f: PercEncState)
    requires Valid(f) && f.initialized
    ensures RowsFit(|f.previousOutput|, f.width, f.width, f.height)
  {
    FullRowsFit(|f.previousOutput|, f.width, f.width, f.height);
  }

  /** An initialized filter, given surfaces with a pitch of at least its
      width and planes of at least its full height, meets what
      `RunFrameVPP` asks of its caller, whatever the engine and locks return. */
  lemma SizedSurfacesMeetFrameRequires(f: PercEncState, cfg: Config, env: FrameEnv, a: Surface, b: Surface)
    requires Valid(f) && f.initialized
    requires f.width <= a.pitch
    requires a.pitch * f.height <= |a.y| && a.pitch * f.height <= |b.y|
    requires ChromaBytes(a.pitch, f.height) <= |a.uv| && ChromaBytes(a.pitch, f.height) <= |b.uv|
    ensures FrameRequires(f, cfg, env, Some(a), Some(b))
  {
    FullRowsFit(|a.y|, a.pitch, f.width, f.height);
    FullRowsFit(|b.y|, a.pitch, f.width, f.height);
    TemporalBufferFits(f);
  }

  /** `Reset` to a crop with fewer rows keeps the old height, so a frame
      whose luma plane holds exactly the new crop's rows passes every check
      of `RunFrameVPP` and then does not hold the rows the filter copies:
      the frame would be read and written past the end of its plane. */
  lemma {:induction false} ResetToShorterFrameOverruns(f: PercEncState, cfg: Config, env: InitEnv, p: VideoParam,
                                                       fenv: FrameEnv, a: Surface, b: Surface)
    requires Valid(f) && f.initialized && env.cpuHasAvx2
    requires p.vppIn.cropH < f.height
    requires |a.y| == a.pitch * p.vppIn.cropH
    requires ReachesPixels(Reset(f, cfg, env, Some(p)).state, cfg, fenv, Some(a), Some(b))
    ensures Reset(f, cfg, env, Some(p)).status == ErrNone
    ensures Reset(f, cfg, env, Some(p)).state.height == f.height
    ensures !PlanesFit(Reset(f, cfg, env, Some(p)).state, a, b)
    // with rows that do not overlap, a chroma plane sized to the new crop is also too short
    ensures f.width <= a.pitch && |a.uv| == ChromaBytes(a.pitch, p.vppIn.cropH) ==>
              |a.uv| < ChromaBytes(a.pitch, Reset(f, cfg, env, Some(p)).state.height)
  {
    var g := Reset(f, cfg, env, Some(p)).state;
    assert g.width == f.width && g.height == f.height;
    // row `cropH` of the old height starts exactly at the end of the plane
    assert 0 <= p.vppIn.cropH < g.height && 0 < g.width;
    assert Offset(a.pitch, p.vppIn.cropH, 0) == |a.y|;
    assert !RowsFit(|a.y|, a.pitch, g.width, g.height);
    if f.width <= a.pitch {
      // the old height has at least one more row, of at least two bytes
      MulMonotone(a.pitch, p.vppIn.cropH + 1, g.height);
      assert a.pitch * (p.vppIn.cropH + 1) == a.pitch * p.vppIn.cropH + a.pitch;
      assert a.pitch * p.vppIn.cropH + 2 <= a.pitch * g.height;
    }
  }

  /** One such frame: a 32x4 filter reset to 32x2, then given a 32x2 frame
      with pitch 32. */
  lemma ShorterFrameExample()
    ensures var info4 := FrameInfo(0, 0, 32, 4, 0, 8, 8, 1, 0);
            var info2 := FrameInfo(0, 0, 32, 2, 0, 8, 8, 1, 0);
            var cfg := Config(false);
            var env := InitEnv(true, false, false, ErrNone);
            var f := Init(Constructed(), cfg, env, Some(info4), Some(info4)).state;
            var g := Reset(f, cfg, env, Some(VideoParam(info2, info2))).state;
            var s := Surface(info2, 32, Zeros(64), Zeros(32));
            var fenv := FrameEnv(ErrNone, ErrNone, ErrNone, ErrNone, (k: KernelInput, x: nat, y: nat) => 0);
            && g.height == 4
            && ReachesPixels(g, cfg, fenv, Some(s), Some(s))
            && !PlanesFit(g, s, s)
  {
    var info4 := FrameInfo(0, 0, 32, 4, 0, 8, 8, 1, 0);
    var info2 := FrameInfo(0, 0, 32, 2, 0, 8, 8, 1, 0);
    var cfg := Config(false);
    var env := InitEnv(true, false, false, ErrNone);
    var f := Init(Constructed(), cfg, env, Some(info4), Some(info4)).state;
    var s := Surface(info2, 32, Zeros(64), Zeros(32));
    var fenv := FrameEnv(ErrNone, ErrNone, ErrNone, ErrNone, (k: KernelInput, x: nat, y: nat) => 0);
    ResetToShorterFrameOverruns(f, cfg, env, VideoParam(info2, info2), fenv, s, s);
  }
}

=== FILE: mfx_types.dfy ===
/**
 The slice of the media SDK's public types that the perceptual-encoding
 prefilter touches: status codes, frame descriptors and frame surfaces.
 */
module MfxTypes {

  /** An `mfxStatus`: zero is success, negative values are errors and
      positive values are warnings. */
  type Status = int

  /** `MFX_ERR_NONE` */
  const ErrNone: Status := 0
  /** `MFX_ERR_NULL_PTR` */
  const ErrNullPtr: Status := -2
  /** `MFX_ERR_UNSUPPORTED` */
  const ErrUnsupported: Status := -3
  /** `MFX_ERR_INVALID_VIDEO_PARAM` */
  const ErrInvalidVideoParam: Status := -15

  /** One 8-bit sample of a plane. */
  newtype byte = x: int | 0 <= x < 256

  /** A pointer argument that may be null. */
  datatype Option<+T> = None | Some(value: T)

  /** The fields of `mfxFrameInfo` that the filter reads. */
  datatype FrameInfo = FrameInfo(
    cropX: nat,
    cropY: nat,
    cropW: nat,
    cropH: nat,
    fourCC: nat,
    bitDepthLuma: nat,
    bitDepthChroma: nat,
    chromaFormat: nat,
    shift: nat)

  /** An `mfxFrameSurface1` with an NV12-style layout: a luma plane `y` and an
      interleaved chroma plane `uv`, both with row stride `pitch`. */
  datatype Surface = Surface(info: FrameInfo, pitch: nat, y: seq<byte>, uv: seq<byte>)

  /** An `mfxExtBuffer` header, passed to entry points that ignore it. */
  datatype ExtBuffer = ExtBuffer(bufferId: nat, bufferSz: nat)
}

=== FILE: perc_enc_filter.dfy ===
/**
 The lifecycle of `PercEncFilter`, the perceptual-encoding VPP prefilter:
 `Init`, `Close`, `Reset` and the entry points that always succeed.

 The object's member fields are the datatype `PercEncState`; each operation takes
 the fields before the call and returns the status, the fields after the call
 and the calls it made into the EncTools analysis engine. Everything the
 object cannot decide for itself (the CPU's AVX2 support, whether the engine
 could be created, whether the core has an external allocator, the status of
 the engine's own `Init`) is an input.
 */
module PercEnc {
  import opened MfxTypes
  import opened Planes

  /** Smallest accepted crop width and height, the last two checks of the
      `MFX_CHECK` chain in `PercEncFilter::Init`. */
  const MinWidth: nat := 16
  const MinHeight: nat := 2

  /** `m_encTools`: null, a live engine, or a pointer to an engine that
      `Close` destroyed but never reset to null. */
  datatype EngineHandle = NoEngine | Live | Dangling

  /** A call the filter makes into the EncTools engine. */
  datatype EngineCall =
    | CreateEngine
    | InitEngine
    | SubmitFrame(displayOrder: nat)
    | QueryFrame(displayOrder: nat)
    | CloseEngine
    | DestroyEngine

  /** The member fields of `PercEncFilter`. `hasKernel` says whether `filter`
      (the opaque `Filter` kernel) has been constructed. */
  datatype PercEncState = PercEncState(
    initialized: bool,
    width: nat,
    height: nat,
    previousOutput: seq<byte>,
    hasKernel: bool,
    saliencyMapSupported: bool,
    frameCounter: nat,
    engine: EngineHandle)

  /** Build configuration: whether `MFX_ENABLE_ENCTOOLS` is defined. */
  datatype Config = Config(encTools: bool)

  /** What `Init` learns from outside the object. */
  datatype InitEnv = InitEnv(
    cpuHasAvx2: bool,
    engineCreated: bool,
    allocatorFound: bool,
    engineInit: Status)

  /** The `vpp.In` and `vpp.Out` frame descriptors of an `mfxVideoParam`. */
  datatype VideoParam = VideoParam(vppIn: FrameInfo, vppOut: FrameInfo)

  /** The outcome of one call: its status, the fields afterwards, and the
      engine calls it made, in order. */
  datatype Step = Step(status: Status, state: PercEncState, calls: seq<EngineCall>)

  /** The fields after construction. */
  function Constructed(): PercEncState
  {
    PercEncState(false, 0, 0, [], false, false, 0, NoEngine)
  }

  /** What holds of the fields between calls. */
  predicate Valid(f: PercEncState)
  {
    && (f.initialized ==>
          && f.width >= MinWidth
          && f.height >= MinHeight
          && |f.previousOutput| == f.width * f.height
          && f.hasKernel)
    && (f.saliencyMapSupported ==> f.engine != NoEngine)
  }

  /** In and out describe frames of one geometry that the filter can process. */
  predicate Acceptable(a: FrameInfo, b: FrameInfo)
  {
    && a.cropW == b.cropW
    && a.cropH == b.cropH
    && a.fourCC == b.fourCC
    && a.bitDepthLuma == b.bitDepthLuma
    && a.bitDepthChroma == b.bitDepthChroma
    && a.chromaFormat == b.chromaFormat
    && a.shift == b.shift
    && a.cropW >= MinWidth
    && a.cropH >= MinHeight
  }

  /** The `MFX_CHECK` chain on the in/out descriptors in `PercEncFilter::Init`,
      in the order the checks are made. */
  function CheckGeometry(a: FrameInfo, b: FrameInfo): Status
  {
    if a.cropW != b.cropW then ErrInvalidVideoParam
    else if a.cropH != b.cropH then ErrInvalidVideoParam
    else if a.fourCC != b.fourCC then ErrInvalidVideoParam
    else if a.bitDepthLuma != b.bitDepthLuma then ErrInvalidVideoParam
    else if a.bitDepthChroma != b.bitDepthChroma then ErrInvalidVideoParam
    else if a.chromaFormat != b.chromaFormat then ErrInvalidVideoParam
    else if a.shift != b.shift then ErrInvalidVideoParam
    else if a.cropW < MinWidth then ErrInvalidVideoParam
    else if a.cropH < MinHeight then ErrInvalidVideoParam
    else ErrNone
  }

  /** `PercEncFilter::Init`. */
  function Init(f: PercEncState, cfg: Config, env: InitEnv, inInfo: Option<FrameInfo>, outInfo: Option<FrameInfo>): (r: Step)
    // the CPU check comes before the null checks, and both come before the short-circuit
    ensures !env.cpuHasAvx2 ==> r == Step(ErrUnsupported, f, [])
    ensures env.cpuHasAvx2 && (inInfo.None? || outInfo.None?) ==> r == Step(ErrNullPtr, f, [])
    // once initialized, Init validates nothing and changes nothing
    ensures env.cpuHasAvx2 && inInfo.Some? && outInfo.Some? && f.initialized ==> r == Step(ErrNone, f, [])
    // geometry rejection: exactly the mismatches and the too-small crops, and nothing is touched
    ensures r.status == ErrInvalidVideoParam <==>
              env.cpuHasAvx2 && inInfo.Some? && outInfo.Some? && !f.initialized
              && !Acceptable(inInfo.value, outInfo.value)
    ensures r.status == ErrInvalidVideoParam ==> r.state == f && r.calls == []
    // the only other failure: the engine exists but the core has no external allocator
    ensures r.status == ErrNullPtr && inInfo.Some? && outInfo.Some? <==>
              env.cpuHasAvx2 && inInfo.Some? && outInfo.Some? && !f.initialized
              && Acceptable(inInfo.value, outInfo.value)
              && cfg.encTools && env.engineCreated && !env.allocatorFound
    ensures r.status in {ErrNone, ErrNullPtr, ErrUnsupported, ErrInvalidVideoParam}
    // so with AVX2 the CPU check never fails, and every other path succeeds
    ensures r.status == ErrUnsupported <==> !env.cpuHasAvx2
    ensures r.status == ErrNone <==>
              && env.cpuHasAvx2 && inInfo.Some? && outInfo.Some?
              && (f.initialized
                  || (Acceptable(inInfo.value, outInfo.value)
                      && !(cfg.encTools && env.engineCreated && !env.allocatorFound)))
    // the filter becomes initialized only by a successful Init, and never stops being so
    ensures r.state.initialized <==> f.initialized || r.status == ErrNone
    // a first successful Init sizes the temporal buffer to the crop and keeps what it held
    ensures !f.initialized && inInfo.Some? && outInfo.Some? && (r.status == ErrNone || r.status == ErrNullPtr) ==>
              && r.state.width == inInfo.value.cropW
              && r.state.height == inInfo.value.cropH
              && |r.state.previousOutput| == r.state.width * r.state.height
              && (forall i :: 0 <= i < |r.state.previousOutput| && i < |f.previousOutput| ==>
                    r.state.previousOutput[i] == f.previousOutput[i])
              && (forall i :: |f.previousOutput| <= i < |r.state.previousOutput| ==> r.state.previousOutput[i] == 0)
              && r.state.hasKernel
    // the saliency gate: on exactly when the engine was created and its Init succeeded
    ensures cfg.encTools && !f.initialized && r.status == ErrNone ==>
              && r.state.saliencyMapSupported == (env.engineCreated && env.engineInit == ErrNone)
              && r.calls == (if env.engineCreated then [CreateEngine, InitEngine] else [CreateEngine])
    // past the geometry checks, the counter is reset and the created engine is kept even when its
    // own Init fails; a missing allocator returns with the gate off and the engine live
    ensures cfg.encTools && !f.initialized && inInfo.Some? && outInfo.Some?
            && (r.status == ErrNone || r.status == ErrNullPtr) ==>
              && r.state.engine == (if env.engineCreated then Live else NoEngine)
              && r.state.frameCounter == 0
    ensures r.status == ErrNullPtr && inInfo.Some? && outInfo.Some? ==>
              && !r.state.initialized
              && !r.state.saliencyMapSupported
              && r.calls == [CreateEngine]
    ensures !cfg.encTools ==>
              && r.state.saliencyMapSupported == f.saliencyMapSupported
              && r.state.frameCounter == f.frameCounter
              && r.state.engine == f.engine
              && r.calls == []
    ensures Valid(f) ==> Valid(r.state)
  {
    if !env.cpuHasAvx2 then Step(ErrUnsupported, f, [])
    else if inInfo.None? || outInfo.None? then Step(ErrNullPtr, f, [])
    else if f.initialized then Step(ErrNone, f, [])
    else
      var a, b := inInfo.value, outInfo.value;
      var sts := CheckGeometry(a, b);
      if sts != ErrNone then Step(sts, f, [])
      else
        var sized := f.(width := a.cropW, height := a.cropH,
                        previousOutput := Resize(f.previousOutput, a.cropW * a.cropH),
                        hasKernel := true);
        if !cfg.encTools then
          Step(ErrNone, sized.(initialized := true), [])
        else
          var reset := sized.(frameCounter := 0, saliencyMapSupported := false);
          if !env.engineCreated then
            Step(ErrNone, reset.(engine := NoEngine, initialized := true), [CreateEngine])
          else if !env.allocatorFound then
            Step(ErrNullPtr, reset.(engine := Live), [CreateEngine])
          else
            Step(ErrNone,
                 reset.(engine := Live, saliencyMapSupported := env.engineInit == ErrNone, initialized := true),
                 [CreateEngine, InitEngine])
  }

  /** `PercEncFilter::Close`. */
  function Close(f: PercEncState, cfg: Config): (r: Step)
    ensures r.status == ErrNone
    // only the engine pointer is affected; in particular the filter stays initialized
    ensures r.state == f.(engine := r.state.engine)
    ensures r.state.engine == (if f.engine == NoEngine then NoEngine else if cfg.encTools then Dangling else f.engine)
    // the engine is closed and destroyed whenever the pointer is not null, even if it was destroyed before
    ensures r.calls == (if cfg.encTools && f.engine != NoEngine then [CloseEngine, DestroyEngine] else [])
    ensures Valid(f) ==> Valid(r.state)
  {
    if cfg.encTools && f.engine != NoEngine then
      Step(ErrNone, f.(engine := Dangling), [CloseEngine, DestroyEngine])
    else
      Step(ErrNone, f, [])
  }

  /** `PercEncFilter::Reset`: `Close`, then `Init` on the new in/out descriptors. */
  function Reset(f: PercEncState, cfg: Config, env: InitEnv, param: Option<VideoParam>): (r: Step)
    ensures param.None? ==> r == Step(ErrNullPtr, f, [])
    ensures param.Some? ==>
              var closed := Close(f, cfg);
              var reopened := Init(closed.state, cfg, env, Some(param.value.vppIn), Some(param.value.vppOut));
              r == Step(reopened.status, reopened.state, closed.calls + reopened.calls)
    // an initialized filter is never re-validated: any descriptors are accepted and the old geometry stays
    ensures param.Some? && f.initialized && env.cpuHasAvx2 ==>
              && r.status == ErrNone
              && r.state.initialized
              && r.state.width == f.width
              && r.state.height == f.height
              && r.state.previousOutput == f.previousOutput
              && r.state.saliencyMapSupported == f.saliencyMapSupported
              && r.state.frameCounter == f.frameCounter
    // a filter that was not initialized is initialized by Reset exactly when the new descriptors are accepted
    ensures param.Some? && !f.initialized && env.cpuHasAvx2 && !(cfg.encTools && env.engineCreated && !env.allocatorFound) ==>
              (r.status == ErrNone <==> Acceptable(param.value.vppIn, param.value.vppOut))
    ensures r.state.initialized <==> f.initialized || r.status == ErrNone
    ensures Valid(f) ==> Valid(r.state)
  {
    if param.None? then Step(ErrNullPtr, f, [])
    else
      var closed := Close(f, cfg);
      if closed.status != ErrNone then closed
      else
        var reopened := Init(closed.state, cfg, env, Some(param.value.vppIn), Some(param.value.vppOut));
        Step(reopened.status, reopened.state, closed.calls + reopened.calls)
  }

  /** `PercEncFilter::Query`: the hint is ignored and the answer is always success. */
  function Query(hint: Option<ExtBuffer>): (s: Status)
    ensures s == ErrNone
  {
    ErrNone
  }

  /** `PercEncFilter::SetParam`: accepts any parameter buffer and changes nothing. */
  function SetParam(f: PercEncState, param: Option<ExtBuffer>): (r: Step)
    ensures r == Step(ErrNone, f, [])
  {
    Step(ErrNone, f, [])
  }

  /** `PercEncFilter::IsReadyOutput`: all work is done synchronously, so output is always ready. */
  function IsReadyOutput(f: PercEncState, requestType: nat): (ready: bool)
    ensures ready
  {
    true
  }
}

=== FILE: planes.dfy ===
/**
 Strided byte planes: a rectangle of `height` rows of `width` bytes whose rows
 start `pitch` bytes apart, and the copies the prefilter makes between such
 planes.
 */
module Planes {
  import opened MfxTypes

  /** Byte offset of column `x` in row `y` of a plane whose rows are `pitch` bytes apart. */
  function Offset(pitch: nat, y: nat, x: nat): nat
  {
    pitch * y + x
  }

  /** The `width` x `height` region at stride `pitch` lies inside a plane of
      `size` bytes, and its rows do not overlap. */
  predicate RowsFit(size: nat, pitch: nat, width: nat, height: nat)
  {
    && width <= pitch
    && forall y, x :: 0 <= y < height && 0 <= x < width ==> Offset(pitch, y, x) < size
  }

  /** Each byte of the region of `a` (stride `p`) equals the byte at the same
      row and column of the region of `b` (stride `q`). */
  predicate RegionEquals(a: seq<byte>, p: nat, b: seq<byte>, q: nat, width: nat, height: nat)
    requires RowsFit(|a|, p, width, height) && RowsFit(|b|, q, width, height)
  {
    forall y, x :: 0 <= y < height && 0 <= x < width ==> a[Offset(p, y, x)] == b[Offset(q, y, x)]
  }

  /** `a` and `b` agree on every byte outside the region: the padding at the
      end of each row and everything after the last row. */
  predicate OutsideRegionEqual(a: seq<byte>, b: seq<byte>, pitch: nat, width: nat, height: nat)
    requires |a| == |b|
  {
    && (forall y, x :: 0 <= y < height && width <= x < pitch && Offset(pitch, y, x) < |a| ==>
          a[Offset(pitch, y, x)] == b[Offset(pitch, y, x)])
    && (forall i :: Offset(pitch, height, 0) <= i < |a| ==> a[i] == b[i])
  }

  /** `n` zero bytes. */
  function Zeros(n: nat): (r: seq<byte>)
    ensures |r| == n
    ensures forall i :: 0 <= i < n ==> r[i] == 0
  {
    seq(n, _ => 0)
  }

  /** `std::vector<uint8_t>::resize`: keeps the existing prefix and
      zero-fills any new tail. */
  function Resize(v: seq<byte>, n: nat): (r: seq<byte>)
    ensures |r| == n
    ensures forall i :: 0 <= i < n && i < |v| ==> r[i] == v[i]
    ensures forall i :: |v| <= i < n ==> r[i] == 0
  {
    if n <= |v| then v[..n] else v + Zeros(n - |v|)
  }

  lemma MulMonotone(p: nat, a: nat, b: nat)
    requires a <= b
    ensures p * a <= p * b
  {
    assert p * b == p * a + p * (b - a);
  }

  /** A byte of an earlier row lies before the start of a later row. */
  lemma EarlierRowsBelow(pitch: nat, y: nat)
    ensures forall yy, x :: 0 <= yy < y && 0 <= x < pitch ==> Offset(pitch, yy, x) < Offset(pitch, y, 0)
  {
    forall yy, x | 0 <= yy < y && 0 <= x < pitch
      ensures Offset(pitch, yy, x) < Offset(pitch, y, 0)
    {
      MulMonotone(pitch, yy + 1, y);
      assert pitch * (yy + 1) == pitch * yy + pitch;
    }
  }

  /** The row after row `y` starts `pitch` bytes later. */
  lemma NextRow(pitch: nat, y: nat)
    ensures Offset(pitch, y + 1, 0) == Offset(pitch, y, pitch)
  {
    assert pitch * (y + 1) == pitch * y + pitch;
  }

  /** A plane of at least `height` full rows holds the region. */
  lemma {:induction false} FullRowsFit(size: nat, pitch: nat, width: nat, height: nat)
    requires width <= pitch && pitch * height <= size
    ensures RowsFit(size, pitch, width, height)
  {
    forall y, x | 0 <= y < height && 0 <= x < width
      ensures Offset(pitch, y, x) < size
    {
      MulMonotone(pitch, y + 1, height);
      assert pitch * (y + 1) == pitch * y + pitch;
    }
  }

  /** Writes `pixel(x, y)` at every byte of the `width` x `height` region of
      `dst` at stride `pitch`, row by row, as the row loops of the prefilter do. */
  method WriteRows(dst: seq<byte>, pitch: nat, width: nat, height: nat, pixel: (nat, nat) -> byte)
    returns (r: seq<byte>)
    requires RowsFit(|dst|, pitch, width, height)
    ensures |r| == |dst|
    ensures forall y, x :: 0 <= y < height && 0 <= x < width ==> r[Offset(pitch, y, x)] == pixel(x, y)
    ensures OutsideRegionEqual(r, dst, pitch, width, height)
  {
    r := dst;
    var y := 0;
    while y < height
      invariant 0 <= y <= height
      invariant |r| == |dst|
      invariant forall yy, x :: 0 <= yy < y && 0 <= x < width ==> r[Offset(pitch, yy, x)] == pixel(x, yy)
      invariant forall yy, x :: 0 <= yy < y && width <= x < pitch && Offset(pitch, yy, x) < |r| ==>
                  r[Offset(pitch, yy, x)] == dst[Offset(pitch, yy, x)]
      invariant forall i :: Offset(pitch, y, 0) <= i < |r| ==> r[i] == dst[i]
    {
      EarlierRowsBelow(pitch, y);
      var x := 0;
      while x < width
        invariant 0 <= x <= width
        invariant |r| == |dst|
        invariant forall yy, xx :: 0 <= yy < y && 0 <= xx < width ==> r[Offset(pitch, yy, xx)] == pixel(xx, yy)
        invariant forall yy, xx :: 0 <= yy < y && width <= xx < pitch && Offset(pitch, yy, xx) < |r| ==>
                    r[Offset(pitch, yy, xx)] == dst[Offset(pitch, yy, xx)]
        invariant forall xx :: 0 <= xx < x ==> r[Offset(pitch, y, xx)] == pixel(xx, y)
        invariant forall i :: Offset(pitch, y, x) <= i < |r| ==> r[i] == dst[i]
      {
        r := r[Offset(pitch, y, x) := pixel(x, y)];
        x := x + 1;
      }
      NextRow(pitch, y);
      y := y + 1;
    }
  }

  /** Copies the first `n` bytes of `src` over the first `n` bytes of `dst`,
      as one flat `std::copy`. */
  method CopyPrefix(src: seq<byte>, dst: seq<byte>, n: nat) returns (r: seq<byte>)
    requires n <= |src| && n <= |dst|
    ensures |r| == |dst|
    ensures forall i :: 0 <= i < n ==> r[i] == src[i]
    ensures forall i :: n <= i < |r| ==> r[i] == dst[i]
  {
    r := dst;
    var i := 0;
    while i < n
      invariant 0 <= i <= n
      invariant |r| == |dst|
      invariant forall k :: 0 <= k < i ==> r[k] == src[k]
      invariant forall k :: i <= k < |r| ==> r[k] == dst[k]
    {
      r := r[i := src[i]];
      i := i + 1;
    }
  }
}

=== FILE: run_frame.dfy ===
/**
 `PercEncFilter::RunFrameVPP`: one frame through the prefilter.

 The submit/query handshake with the EncTools engine, the two surface locks
 and the opaque `Filter::processFrame` kernel are inputs (`FrameEnv`): the
 engine and the locks are the statuses they return, and the kernel is the
 value it writes at each luma position of the crop rectangle, as a function
 of what the filter hands it.
 */
module Frame {
  import opened MfxTypes
  import opened Planes
  import opened PercEnc

  /** What the filter passes to `Filter::processFrame`: the input luma plane
      and its pitch, the temporal buffer, and the crop size. */
  datatype KernelInput = KernelInput(src: seq<byte>, srcPitch: nat, previous: seq<byte>, width: nat, height: nat)

  /** The kernel, as the luma sample it produces at column `x` of row `y`. */
  type Kernel = (KernelInput, nat, nat) -> byte

  /** What `RunFrameVPP` learns from outside the object. */
  datatype FrameEnv = FrameEnv(submit: Status, query: Status, lockIn: Status, lockOut: Status, kernel: Kernel)

  /** The frame needs cropping or resizing, so the filter leaves it alone. */
  predicate SkipsFiltering(a: Surface, b: Surface)
  {
    || a.info.cropX != b.info.cropX || a.info.cropX != 0
    || a.info.cropY != b.info.cropY || a.info.cropY != 0
    || a.info.cropW != b.info.cropW
    || a.info.cropH != b.info.cropH
    || a.pitch != b.pitch
  }

  /** Both surfaces are present and the frame is one the filter processes. */
  predicate Processes(inSurf: Option<Surface>, outSurf: Option<Surface>)
  {
    inSurf.Some? && outSurf.Some? && !SkipsFiltering(inSurf.value, outSurf.value)
  }

  /** The frame asks the engine for a saliency map. */
  predicate HandshakeRuns(f: PercEncState, cfg: Config)
  {
    cfg.encTools && f.saliencyMapSupported
  }

  /** The handshake, if it runs, succeeds. */
  predicate HandshakeSucceeds(f: PercEncState, cfg: Config, env: FrameEnv)
  {
    HandshakeRuns(f, cfg) ==> env.submit == ErrNone && env.query == ErrNone
  }

  /** The frame gets past every check and both locks, so pixels are written. */
  predicate ReachesPixels(f: PercEncState, cfg: Config, env: FrameEnv, inSurf: Option<Surface>, outSurf: Option<Surface>)
  {
    && Processes(inSurf, outSurf)
    && HandshakeSucceeds(f, cfg, env)
    && env.lockIn == ErrNone
    && env.lockOut == ErrNone
  }

  /** Bytes of the interleaved chroma plane that are copied: `pitch * height / 2`. */
  function ChromaBytes(pitch: nat, height: nat): nat
  {
    pitch * height / 2
  }

  /** The planes are large enough for what the filter reads and writes. */
  predicate PlanesFit(f: PercEncState, a: Surface, b: Surface)
  {
    && RowsFit(|a.y|, a.pitch, f.width, f.height)
    && RowsFit(|b.y|, a.pitch, f.width, f.height)
    && RowsFit(|f.previousOutput|, f.width, f.width, f.height)
    && ChromaBytes(a.pitch, f.height) <= |a.uv|
    && ChromaBytes(a.pitch, f.height) <= |b.uv|
  }

  /** What the caller owes: the planes a processed frame touches are large enough. */
  predicate FrameRequires(f: PercEncState, cfg: Config, env: FrameEnv, inSurf: Option<Surface>, outSurf: Option<Surface>)
  {
    ReachesPixels(f, cfg, env, inSurf, outSurf) ==> PlanesFit(f, inSurf.value, outSurf.value)
  }

  /** A missing surface is a null-pointer error, before anything else. */
  predicate NullRejected(f: PercEncState, inSurf: Option<Surface>, outSurf: Option<Surface>, r: Step, out: Option<Surface>)
  {
    inSurf.None? || outSurf.None? ==> r == Step(ErrNullPtr, f, []) && out == outSurf
  }

  /** A frame needing cropping or resizing succeeds and touches nothing. */
  predicate PassedThrough(f: PercEncState, inSurf: Option<Surface>, outSurf: Option<Surface>, r: Step, out: Option<Surface>)
  {
    inSurf.Some? && outSurf.Some? && SkipsFiltering(inSurf.value, outSurf.value) ==>
      r == Step(ErrNone, f, []) && out == outSurf
  }

  /** The engine is called only when the gate is on: `Submit` first, then
      `Query` only if `Submit` succeeded; the counter advances exactly when
      `Query` is called. A failing call ends the frame with its status. */
  predicate HandshakeFollowed(f: PercEncState, cfg: Config, env: FrameEnv, inSurf: Option<Surface>, outSurf: Option<Surface>, r: Step)
  {
    var c := f.frameCounter;
    && (!(Processes(inSurf, outSurf) && HandshakeRuns(f, cfg)) ==> r.calls == [] && r.state.frameCounter == c)
    && (Processes(inSurf, outSurf) && HandshakeRuns(f, cfg) && env.submit != ErrNone ==>
          r == Step(env.submit, f, [SubmitFrame(c)]))
    && (Processes(inSurf, outSurf) && HandshakeRuns(f, cfg) && env.submit == ErrNone ==>
          && r.calls == [SubmitFrame(c), QueryFrame(c)]
          && r.state.frameCounter == c + 1)
    && (Processes(inSurf, outSurf) && HandshakeRuns(f, cfg) && env.submit == ErrNone && env.query != ErrNone ==>
          r.status == env.query && r.state == f.(frameCounter := c + 1))
  }

  /** A failing lock ends the frame with its status, the input lock first. */
  predicate LocksChecked(f: PercEncState, cfg: Config, env: FrameEnv, inSurf: Option<Surface>, outSurf: Option<Surface>, r: Step)
  {
    Processes(inSurf, outSurf) && HandshakeSucceeds(f, cfg, env) ==>
      && (env.lockIn != ErrNone ==> r.status == env.lockIn)
      && (env.lockIn == ErrNone && env.lockOut != ErrNone ==> r.status == env.lockOut)
  }

  /** The frame succeeds exactly when it is passed through or fully processed. */
  predicate SucceedsExactly(f: PercEncState, cfg: Config, env: FrameEnv, inSurf: Option<Surface>, outSurf: Option<Surface>, r: Step)
  {
    r.status == ErrNone <==>
      inSurf.Some? && outSurf.Some? &&
      (SkipsFiltering(inSurf.value, outSurf.value) || ReachesPixels(f, cfg, env, inSurf, outSurf))
  }

  /** A failed frame writes neither the output surface nor the temporal
      buffer, and no call changes anything but the counter and the buffer. */
  predicate FailureWritesNothing(f: PercEncState, outSurf: Option<Surface>, r: Step, out: Option<Surface>)
  {
    && r.state == f.(frameCounter := r.state.frameCounter, previousOutput := r.state.previousOutput)
    && (r.status != ErrNone ==> out == outSurf && r.state.previousOutput == f.previousOutput)
  }

  /** A processed frame: the crop rectangle of the output luma comes from the
      kernel, or is copied from the input when there is no kernel, and the
      row padding is not written; the temporal buffer then holds the output
      luma, densely packed; and the first `pitch * height / 2` chroma bytes
      are copied from the input. */
  predicate FrameWritten(f: PercEncState, cfg: Config, env: FrameEnv, inSurf: Option<Surface>, outSurf: Option<Surface>,
                         r: Step, out: Option<Surface>)
    requires FrameRequires(f, cfg, env, inSurf, outSurf)
  {
    ReachesPixels(f, cfg, env, inSurf, outSurf) ==>
      var src, dst := inSurf.value, outSurf.value;
      var p, w, h := src.pitch, f.width, f.height;
      && out.Some?
      && out.value.info == dst.info
      && out.value.pitch == dst.pitch
      && |out.value.y| == |dst.y|
      && |out.value.uv| == |dst.uv|
      && |r.state.previousOutput| == |f.previousOutput|
      // luma
      && (f.hasKernel ==>
            forall y, x :: 0 <= y < h && 0 <= x < w ==>
              out.value.y[Offset(p, y, x)] == env.kernel(KernelInput(src.y, p, f.previousOutput, w, h), x, y))
      && (!f.hasKernel ==> RegionEquals(out.value.y, p, src.y, p, w, h))
      && OutsideRegionEqual(out.value.y, dst.y, p, w, h)
      // temporal buffer
      && RegionEquals(r.state.previousOutput, w, out.value.y, p, w, h)
      && OutsideRegionEqual(r.state.previousOutput, f.previousOutput, w, w, h)
      // chroma
      && (forall i :: 0 <= i < ChromaBytes(p, h) ==> out.value.uv[i] == src.uv[i])
      && (forall i :: ChromaBytes(p, h) <= i < |dst.uv| ==> out.value.uv[i] == dst.uv[i])
  }

  /** `PercEncFilter::RunFrameVPP`. */
  method RunFrameVPP(f: PercEncState, cfg: Config, env: FrameEnv, inSurf: Option<Surface>, outSurf: Option<Surface>)
    returns (r: Step, out: Option<Surface>)
    requires FrameRequires(f, cfg, env, inSurf, outSurf)
    ensures NullRejected(f, inSurf, outSurf, r, out)
    ensures PassedThrough(f, inSurf, outSurf, r, out)
    ensures HandshakeFollowed(f, cfg, env, inSurf, outSurf, r)
    ensures LocksChecked(f, cfg, env, inSurf, outSurf, r)
    ensures SucceedsExactly(f, cfg, env, inSurf, outSurf, r)
    ensures FailureWritesNothing(f, outSurf, r, out)
    ensures FrameWritten(f, cfg, env, inSurf, outSurf, r, out)
    ensures Valid(f) ==> Valid(r.state)
  {
    if inSurf.None? || outSurf.None? {
      return Step(ErrNullPtr, f, []), outSurf;
    }
    var src, dst := inSurf.value, outSurf.value;
    if SkipsFiltering(src, dst) {
      return Step(ErrNone, f, []), outSurf;
    }

    var g := f;
    var calls: seq<EngineCall> := [];
    if cfg.encTools && f.saliencyMapSupported {
      calls := [SubmitFrame(f.frameCounter)];
      if env.submit != ErrNone {
        return Step(env.submit, f, calls), outSurf;
      }
      calls := calls + [QueryFrame(f.frameCounter)];
      g := f.(frameCounter := f.frameCounter + 1);
      if env.query != ErrNone {
        return Step(env.query, g, calls), outSurf;
      }
    }

    if env.lockIn != ErrNone {
      return Step(env.lockIn, g, calls), outSurf;
    }
    if env.lockOut != ErrNone {
      return Step(env.lockOut, g, calls), outSurf;
    }

    var p, w, h := dst.pitch, f.width, f.height;
    var luma;
    if f.hasKernel {
      var input := KernelInput(src.y, src.pitch, f.previousOutput, w, h);
      luma := WriteRows(dst.y, p, w, h, (x: nat, y: nat) => env.kernel(input, x, y));
    } else {
      luma := WriteRows(dst.y, p, w, h, (x: nat, y: nat) => if Offset(p, y, x) < |src.y| then src.y[Offset(p, y, x)] else 0);
    }
    var previous := WriteRows(f.previousOutput, w, w, h,
                              (x: nat, y: nat) => if Offset(p, y, x) < |luma| then luma[Offset(p, y, x)] else 0);
    var uv := CopyPrefix(src.uv, dst.uv, ChromaBytes(src.pitch, h));
    return Step(ErrNone, g.(previousOutput := previous), calls), Some(dst.(y := luma, uv := uv));
  }

  /** `PercEncFilter::RunFrameVPPTask`: the same frame, by delegation. */
  method RunFrameVPPTask(f: PercEncState, cfg: Config, env: FrameEnv, inSurf: Option<Surface>, outSurf: Option<Surface>)
    returns (r: Step, out: Option<Surface>)
    requires FrameRequires(f, cfg, env, inSurf, outSurf)
    ensures NullRejected(f, inSurf, outSurf, r, out)
    ensures PassedThrough(f, inSurf, outSurf, r, out)
    ensures HandshakeFollowed(f, cfg, env, inSurf, outSurf, r)
    ensures LocksChecked(f, cfg, env, inSurf, outSurf, r)
    ensures SucceedsExactly(f, cfg, env, inSurf, outSurf, r)
    ensures FailureWritesNothing(f, outSurf, r, out)
    ensures FrameWritten(f, cfg, env, inSurf, outSurf, r, out)
    ensures Valid(f) ==> Valid(r.state)
  {
    r, out := RunFrameVPP(f, cfg, env, inSurf, outSurf);
  }
}
